=== FILE: README.md ===
# js-utils: 1-bit image packing and sensor-event guards

A Dafny model of two pieces of the `js-utils` TypeScript library:

- **`CanvasRenderUtils.toBinaryImage`** turns a canvas `ImageData` (four bytes
  per pixel: R, G, B, A) into a packed monochrome bitmap for e-paper
  displays. It packs eight pixels per byte, and the first pixel of each group
  goes in the most significant bit. A pixel is black (bit 1) when its red,
  green or blue channel is below 150. Alpha is never read.
  `CanvasRenderUtils.ToBinaryImage` keeps the source's structure. Its outer
  loop steps through the data 32 bytes at a time and stores at index `i / 32`
  into a zero-filled buffer of `width * height / 8` bytes. The inner loop is
  the separate method `CanvasRenderUtils.PackBlock`. It steps through one block
  4 bytes at a time with an accumulator that adds the pixel's bit and shifts
  left after every pixel but the last. The method is proved equal to a
  functional packing (`Pack`) and to the reference MSB-first packer
  `Bits.PackBits`, which has the inverse `Bits.UnpackBits`.
- **`SensorEvents` type guards**: twelve predicates `isTemperature` …
  `isImpulseEvent`. Each compares an event's `tag` with a one-character code.
  The model has an event record carrying a tag and a member-specific reading,
  one predicate per guard, and an enumeration of the twelve union members.
  `NetworkDisplay`'s status record is modelled too, since it is the one place
  that builds events with a fixed tag.

Modelling decisions:

- The packer is modelled for every pixel count, not only multiples of eight.
  `Buffer.alloc` truncates a fractional size to `floor(w*h/8)`. A read past the
  end of `data.data` gives `undefined`, and `undefined < 150` is false. A store
  at an index past the end of the buffer is dropped. So a trailing group of
  fewer than eight pixels is computed and then discarded.
  `CanvasRenderUtils.Below` models the out-of-range read and the
  `if i / 32 < |buffer|` guard models the dropped store.
- The only precondition is the `ImageData` shape: `|data| == 4 * width * height`.
- The inner loop is a method of its own (`PackBlock`), so each loop is proved
  on its own. `ToBinaryImage` also has a ghost out-parameter `stores`: the
  trace of every buffer index the loop stores to, including a store the
  buffer drops. Its contract uses the trace to say where the stores go. The
  compiled signature returns only the bitmap, as the source does.
- `<<` goes through JavaScript's 32-bit conversion (`JsNumbers.ShiftLeftOne`).
  Element assignment into the `Buffer` goes through the octet conversion
  (`JsNumbers.ToUint8`). The proofs show that neither one changes a value here.
- Inputs are immutable sequences, so the pixel buffer cannot be modified.
- JavaScript numbers in event records are modelled as `real`. No arithmetic
  is done on them.

## Model

| member | source | states |
|---|---|---|
| `CanvasRenderUtils.ToBinaryImage` | src/CanvasRenderUtils.ts:26-49 | The result has `width*height/8` bytes, so exactly one bit per pixel when the pixel count is a multiple of 8. It equals the functional packing `Pack`, whose bit layout `CanvasRenderUtils.PackedBits` states. The loop attempts one store per group of eight pixels, complete or not, at indices `0, 1, 2, …` in increasing order. When the pixel count is a multiple of 8, every attempted store lands inside the buffer. Otherwise exactly one store, for the trailing partial group, falls past the end. |
| `CanvasRenderUtils.PackBlock` | src/CanvasRenderUtils.ts:31-43 | The inner loop over the eight pixels of the block at byte offset `i` leaves an accumulator in `0..255` that is exactly the MSB-first packed byte of those eight readings. |
| `CanvasRenderUtils.PartialStep` | src/CanvasRenderUtils.ts:34-43 | Inner-loop step: the accumulator after pixel `k` is twice the previous partial value plus the pixel's bit. It stays below 256, and below 128 before each shift, so the shift and the store never truncate. |
| `CanvasRenderUtils.PackedBits` | src/CanvasRenderUtils.ts:30-45 | Pixel `p` goes to output byte `p/8` at bit position `7 - p%8`, and that bit is 1 exactly when the pixel is dark. |
| `CanvasRenderUtils.PackIsPackBits` | src/CanvasRenderUtils.ts:30-45 | The packed image is the MSB-first reference packing of the pixels' black/white readings, taken in pixel order. |
| `CanvasRenderUtils.UnpackPack` | src/CanvasRenderUtils.ts:30-45 | Unpacking the bitmap gives back the black/white reading of every pixel in the complete groups of eight. |
| `CanvasRenderUtils.AllWhite` | src/CanvasRenderUtils.ts:35-45 | An image whose R, G and B channels are all at least 150 packs to all-zero bytes. |
| `CanvasRenderUtils.AllBlack` | src/CanvasRenderUtils.ts:35-45 | An image whose R, G and B channels are all below 150 packs to all-0xFF bytes. |
| `CanvasRenderUtils.AlphaIgnored` | src/CanvasRenderUtils.ts:35-37 | Two images that differ only in alpha bytes pack to the same bitmap. |
| `JsNumbers.ToInt32` | src/CanvasRenderUtils.ts:41 | The 32-bit conversion under `<<` gives a signed 32-bit value congruent to its input mod 2^32. |
| `JsNumbers.ShiftLeftOne` | src/CanvasRenderUtils.ts:41 | `x << 1` is a signed 32-bit value, and it is exactly `2*x` for `0 <= x < 2^30`. |
| `JsNumbers.ToUint8` | src/CanvasRenderUtils.ts:45 | A `Buffer` element keeps its value mod 256, so a value already in `0..255` is stored unchanged. |
| `Bits.Horner` | src/CanvasRenderUtils.ts:31-43 | The shift-and-add value of `k` bits is below `2^k`. |
| `Bits.PackByte` | src/CanvasRenderUtils.ts:34-43 | A group of eight readings becomes a byte whose bit `7 - k` is the `k`-th reading. |
| `Bits.PackBits` | src/CanvasRenderUtils.ts:27-45 | Packing gives one byte per complete group of eight readings and drops a trailing partial group. |
| `Bits.UnpackBits` | src/CanvasRenderUtils.ts:30-45 | Unpacking gives eight readings per byte. Reading `p` is bit `7 - p%8` of byte `p/8`. |
| `Bits.UnpackPackByte` | src/CanvasRenderUtils.ts:34-43 | Unpacking a packed group of eight readings gives the group back. |
| `Bits.PackUnpackByte` | src/CanvasRenderUtils.ts:34-43 | Packing the eight readings of a byte gives the byte back, so every byte value can come out of the packer. |
| `Bits.UnpackPackBits` | src/CanvasRenderUtils.ts:30-45 | Unpacking a packing gives back the readings of all complete groups. |
| `Bits.PackUnpackBits` | src/CanvasRenderUtils.ts:30-45 | Packing an unpacking gives back the original byte string. |
| `Bits.HornerAllFalse` | src/CanvasRenderUtils.ts:35-43 | A group with no dark pixel accumulates to 0. |
| `Bits.HornerAllTrue` | src/CanvasRenderUtils.ts:35-43 | A group of `k` dark pixels accumulates to `2^k - 1`. |
| `SensorEvents.Code` | src/ISensorEvent.ts:84-130 | Every union member's tag code is one character long. |
| `SensorEvents.Classify` | src/ISensorEvent.ts:84-130 | Trying the guards in declaration order selects member `k` iff `k`'s guard holds. It selects nothing iff no guard holds. |
| `SensorEvents.GuardIsTagTest` | src/ISensorEvent.ts:84-130 | Each guard holds iff the tag equals its member's code (t, p, h, c, w, e, r, a, b, k, d, i). |
| `SensorEvents.CodesDistinct` | src/ISensorEvent.ts:84-130 | Two members have the same code iff they are the same member. |
| `SensorEvents.AtMostOneGuard` | src/ISensorEvent.ts:84-130 | No event satisfies two different guards. |
| `SensorEvents.GuardsSeeOnlyTag` | src/ISensorEvent.ts:84-130 | Two events with equal tags get the same answer from every guard. |
| `SensorEvents.UnknownTagNoGuard` | src/ISensorEvent.ts:84-130 | An event whose tag is none of the twelve codes satisfies no guard. |
| `SensorEvents.GuardsMatchUnion` | src/ISensorEvent.ts:66-130 | Take an event tagged with the code of the union member its fields belong to. If that member is a display status, the event also carries the `vcc` it requires. Such an event passes that member's guard and no other, and it is classified as that member. |
| `NetworkDisplay.DisplayStatus` | src/NetworkDisplay.ts:9-23 | A status built from a parsed reply that carries every field of the declared type has tag `d`. It passes `isThreadDisplayStatus` and no other guard, and it is well formed as an `IThreadDisplayStatus`. It keeps the reply's instance, voltage, parent and timestamp. It has no `previousSampleTimeMicros` or `rssi`, since the status type has neither. |

## Left out

- Block-wise CoAP transfer (block splitting, the Block option of RFC 7959, the 2.31 Continue code): `src/Coap.ts` has no such code. Its `getJson` and `postJson` send single requests (src/Coap.ts:6-27), so there is nothing here to model.
- `Coap.getJson`, `Coap.postJson`, `sendAndHandleResponse` (src/Coap.ts): thin wrappers around the external `coap` library and Promise callbacks. They resolve on a response code starting with `2.` and reject on any other code, a timeout or an error. That one rule lives in a library callback.
- `src/Mqtt.ts`: network client, logging, and the process exit on the 20th disconnect. It is I/O only.
- `NetworkDisplay.statusesWithInterval`: timers, event streams, the CoAP request, JSON parsing and `new Date()`. Only the record it builds is modelled (`NetworkDisplay.DisplayStatus`), with the parsed fields and the timestamp passed in as parameters.
- NetworkDisplay.DisplayStatus: the model takes the reply's `instance`, `vcc` and `parent` as typed parameters, so it assumes the reply carries all three with their declared types. The source does not check this. `JSON.parse` gives an untyped value, and its fields are copied unchecked (src/NetworkDisplay.ts:16-23), so a reply that lacks `vcc` or `parent` still yields a record tagged `d` that is not a well-formed `IThreadDisplayStatus`.
- `src/declarations.d.ts`: ambient type declarations, with no behaviour.
- `getTextCenter`, `getDefaultContext`, `saveToPngFile` (src/CanvasRenderUtils.ts:6-24, 51-62): floating-point text metrics, the canvas library and file-stream I/O.
- The twelve guard predicates (`SensorEvents.IsTemperature` … `SensorEvents.IsImpulseEvent`) have no contracts of their own. What they state is proved in `SensorEvents.GuardIsTagTest` and the lemmas after it. TypeScript's type narrowing (`event is ITemperatureEvent`) has no Dafny counterpart. `SensorEvents.WellTagged` expresses the tag/fields agreement that narrowing assumes. That includes the one base field a member makes required: `vcc` on a display status.
- JavaScript numbers in event records are `real` in the model, so floating-point rounding is not modelled. No operation here computes with them.

=== FILE: bits.dfy ===
/** Most-significant-bit-first packing of boolean pixels into bytes, with its
    inverse. This is the reference definition the image packer is proved
    against: eight booleans become one byte, the first boolean in bit 7. */
module Bits {

  /** An octet, as stored in a `Uint8ClampedArray` or a Node `Buffer`. */
  type byte = b: int | 0 <= b < 256

  function Pow2(k: nat): (r: nat)
    ensures r >= 1
  {
    if k == 0 then 1 else 2 * Pow2(k - 1)
  }

  /** Powers of two grow with the exponent. */
  lemma {:induction false} Pow2Mono(a: nat, b: nat)
    requires a <= b
    ensures Pow2(a) <= Pow2(b)
    decreases b
  {
    if a < b {
      Pow2Mono(a, b - 1);
    }
  }

  function BitValue(b: bool): nat {
    if b then 1 else 0
  }

  /** The number whose binary digits, most significant first, are `bits`. */
  function Horner(bits: seq<bool>): (r: nat)
    ensures r < Pow2(|bits|)
  {
    if |bits| == 0 then 0
    else 2 * Horner(bits[..|bits| - 1]) + BitValue(bits[|bits| - 1])
  }

  /** `x` shifted right by `m` binary places. */
  function Shr(x: nat, m: nat): nat {
    if m == 0 then x else Shr(x / 2, m - 1)
  }

  /** Whether bit `pos` (0 = least significant) of `x` is set. */
  predicate TestBit(x: nat, pos: nat) {
    if pos == 0 then x % 2 == 1 else TestBit(x / 2, pos - 1)
  }

  /** Eight pixels, first one in the most significant bit. */
  function PackByte(bits: seq<bool>): (r: byte)
    requires |bits| == 8
    ensures forall k :: 0 <= k < 8 ==> (TestBit(r, 7 - k) <==> bits[k])
  {
    assert Pow2(8) == 256;
    TestBitHorner(bits);
    Horner(bits)
  }

  /** The eight pixels a byte stands for, most significant bit first. */
  function UnpackByte(b: byte): (r: seq<bool>)
    ensures |r| == 8
  {
    seq(8, k requires 0 <= k < 8 => TestBit(b, 7 - k))
  }

  /** Packs every complete group of eight; a trailing partial group is dropped. */
  function PackBits(bits: seq<bool>): (r: seq<byte>)
    ensures |r| == |bits| / 8
  {
    if |bits| < 8 then [] else [PackByte(bits[..8])] + PackBits(bits[8..])
  }

  function UnpackBits(bs: seq<byte>): (r: seq<bool>)
    ensures |r| == 8 * |bs|
    ensures forall p :: 0 <= p < |r| ==> (r[p] <==> TestBit(bs[p / 8], 7 - p % 8))
  {
    if |bs| == 0 then [] else UnpackByte(bs[0]) + UnpackBits(bs[1..])
  }

  /** Bit `|bits| - 1 - k` of the Horner value is the `k`-th boolean. */
  lemma {:induction false} TestBitHorner(bits: seq<bool>)
    ensures forall k :: 0 <= k < |bits| ==> (TestBit(Horner(bits), |bits| - 1 - k) <==> bits[k])
  {
    if |bits| > 0 {
      var init := bits[..|bits| - 1];
      TestBitHorner(init);
      var h := Horner(bits);
      assert h == 2 * Horner(init) + BitValue(bits[|bits| - 1]);
      assert h / 2 == Horner(init);
      forall k | 0 <= k < |bits|
        ensures TestBit(h, |bits| - 1 - k) <==> bits[k]
      {
        if k < |bits| - 1 {
          assert init[k] == bits[k];
        }
      }
    }
  }

  lemma {:induction false} ShrStep(x: nat, m: nat)
    ensures Shr(x, m + 1) == Shr(x, m) / 2
    decreases m
  {
    if m > 0 {
      ShrStep(x / 2, m - 1);
    }
  }

  lemma {:induction false} TestBitShr(x: nat, m: nat)
    ensures TestBit(x, m) <==> Shr(x, m) % 2 == 1
    decreases m
  {
    if m > 0 {
      TestBitShr(x / 2, m - 1);
    }
  }

  lemma {:induction false} ShrSmall(x: nat, m: nat)
    requires x < Pow2(m)
    ensures Shr(x, m) == 0
    decreases m
  {
    if m > 0 {
      ShrSmall(x / 2, m - 1);
    }
  }

  /** The first `k` pixels of a byte, read back as a number, are its top `k` bits. */
  lemma {:induction false} HornerUnpackPrefix(b: byte, k: nat)
    requires k <= 8
    ensures Horner(UnpackByte(b)[..k]) == Shr(b, 8 - k)
    decreases k
  {
    var u := UnpackByte(b);
    if k == 0 {
      assert Pow2(8) == 256;
      ShrSmall(b, 8);
    } else {
      HornerUnpackPrefix(b, k - 1);
      assert u[..k][..k - 1] == u[..k - 1];
      var s := Shr(b, 8 - k);
      ShrStep(b, 8 - k);
      TestBitShr(b, 8 - k);
      assert u[k - 1] == TestBit(b, 8 - k);
      assert Horner(u[..k]) == 2 * (s / 2) + BitValue(u[k - 1]);
    }
  }

  lemma UnpackPackByte(bits: seq<bool>)
    requires |bits| == 8
    ensures UnpackByte(PackByte(bits)) == bits
  {
  }

  lemma PackUnpackByte(b: byte)
    ensures PackByte(UnpackByte(b)) == b
  {
    HornerUnpackPrefix(b, 8);
    assert UnpackByte(b)[..8] == UnpackByte(b);
  }

  /** Byte `g` of the packing is the `g`-th group of eight booleans. */
  lemma {:induction false} PackBitsAt(bits: seq<bool>, g: nat)
    requires 8 * g + 8 <= |bits|
    ensures PackBits(bits)[g] == PackByte(bits[8 * g .. 8 * g + 8])
    decreases g
  {
    if g > 0 {
      PackBitsAt(bits[8..], g - 1);
      assert bits[8..][8 * (g - 1) .. 8 * (g - 1) + 8] == bits[8 * g .. 8 * g + 8];
    }
  }

  /** Unpacking a packing gives back every complete group of booleans. */
  lemma {:induction false} UnpackPackBits(bits: seq<bool>)
    ensures UnpackBits(PackBits(bits)) == bits[..8 * (|bits| / 8)]
    decreases |bits|
  {
    if |bits| >= 8 {
      UnpackPackBits(bits[8..]);
      UnpackPackByte(bits[..8]);
      var rest := PackBits(bits[8..]);
      assert PackBits(bits)[1..] == rest;
      assert bits[8..][..8 * (|bits[8..]| / 8)] == bits[8 .. 8 * (|bits| / 8)];
      assert bits[..8] + bits[8 .. 8 * (|bits| / 8)] == bits[..8 * (|bits| / 8)];
    }
  }

  /** Packing the unpacked booleans of a byte string gives it back. */
  lemma {:induction false} PackUnpackBits(bs: seq<byte>)
    ensures PackBits(UnpackBits(bs)) == bs
    decreases |bs|
  {
    if |bs| > 0 {
      PackUnpackBits(bs[1..]);
      PackUnpackByte(bs[0]);
      var u := UnpackBits(bs);
      assert u[..8] == UnpackByte(bs[0]);
      assert u[8..] == UnpackBits(bs[1..]);
    }
  }

  lemma {:induction false} HornerAllFalse(bits: seq<bool>)
    requires forall k :: 0 <= k < |bits| ==> !bits[k]
    ensures Horner(bits) == 0
    decreases |bits|
  {
    if |bits| > 0 {
      HornerAllFalse(bits[..|bits| - 1]);
    }
  }

  lemma {:induction false} HornerAllTrue(bits: seq<bool>)
    requires forall k :: 0 <= k < |bits| ==> bits[k]
    ensures Horner(bits) == Pow2(|bits|) - 1
    decreases |bits|
  {
    if |bits| > 0 {
      HornerAllTrue(bits[..|bits| - 1]);
    }
  }
}

=== FILE: canvas_render_utils.dfy ===
/** `CanvasRenderUtils.toBinaryImage`: an RGBA canvas image becomes a packed
    monochrome bitmap, eight pixels per byte, the first pixel of each group in
    the most significant bit. A pixel is black (bit 1) when any of its red,
    green or blue channels is below 150; alpha is never looked at. */
module CanvasRenderUtils {
  import opened Bits
  import JsNumbers

  /** A canvas `ImageData`: four channel bytes (R, G, B, A) per pixel, row by row. */
  datatype ImageData = ImageData(width: nat, height: nat, data: seq<byte>) {
    /** The shape every `ImageData` has. */
    predicate Valid() {
      |data| == 4 * width * height
    }

    function PixelCount(): nat {
      width * height
    }
  }

  /** Channels below this value make a pixel black. */
  const Threshold: int := 150

  /** `data[o] < 150`, where a read past the end yields `undefined`,
      which compares false. */
  predicate Below(data: seq<byte>, o: nat) {
    o < |data| && data[o] < Threshold
  }

  /** Whether pixel `p` is packed as a 1 bit. */
  predicate IsDark(data: seq<byte>, p: nat) {
    Below(data, 4 * p) || Below(data, 4 * p + 1) || Below(data, 4 * p + 2)
  }

  /** The black/white reading of every pixel, in order. */
  function Darkness(img: ImageData): (r: seq<bool>)
    ensures |r| == img.PixelCount()
  {
    seq(img.PixelCount(), p requires 0 <= p => IsDark(img.data, p))
  }

  /** The black/white readings of pixels `8g .. 8g + 7`. */
  function DarkGroup(data: seq<byte>, g: nat): (r: seq<bool>)
    ensures |r| == 8
  {
    seq(8, k requires 0 <= k < 8 => IsDark(data, 8 * g + k))
  }

  /** The bitmap `toBinaryImage` returns, as a value: one byte per complete group of eight pixels. */
  function Pack(img: ImageData): (r: seq<byte>)
    ensures |r| == img.PixelCount() / 8
  {
    seq(img.PixelCount() / 8, g requires 0 <= g => PackByte(DarkGroup(img.data, g)))
  }

  /** The accumulator after `k` pixels of a group have been added, before the shift. */
  function Partial(data: seq<byte>, g: nat, k: nat): nat
    requires k <= 8
  {
    Horner(DarkGroup(data, g)[..k])
  }

  /** The packer as written: an outer loop over 32-byte blocks (eight pixels),
      the inner loop `PackBlock` over the pixels of a block, and a store at
      index `i / 32` of a buffer of `width * height / 8` bytes. A store past
      the end of the buffer is dropped, as a `Buffer` drops it, so a trailing
      group of fewer than eight pixels is computed and discarded. `stores`
      is the trace of every store the loop attempts (`binaryImage[i / 32] = …`),
      in order, including the one a buffer drops; where each pixel lands is
      stated by `PackedBits`. */
  method ToBinaryImage(img: ImageData) returns (binaryImage: seq<byte>, ghost stores: seq<nat>)
    requires img.Valid()
    ensures |binaryImage| == img.PixelCount() / 8
    ensures img.PixelCount() % 8 == 0 ==> 8 * |binaryImage| == img.PixelCount()
    ensures binaryImage == Pack(img)
    ensures stores == seq((img.PixelCount() + 7) / 8, g => g)
    ensures |stores| == |binaryImage| + if img.PixelCount() % 8 == 0 then 0 else 1
    ensures img.PixelCount() % 8 == 0 ==> forall s <- stores :: s < |binaryImage|
  {
    var n := img.width * img.height;
    var buffer: seq<byte> := seq(n / 8, _ => 0);  // Buffer.alloc zero-fills
    var i := 0;
    ghost var t: nat := 0;
    stores := [];
    while i < n * 4
      invariant i == 32 * t
      invariant |buffer| == n / 8
      invariant t <= (n + 7) / 8
      invariant stores == seq(t, g => g)
      invariant forall g :: 0 <= g < |buffer| && g < t ==> buffer[g] == PackByte(DarkGroup(img.data, g))
      invariant forall g :: t <= g < |buffer| ==> buffer[g] == 0
    {
      var binaryImageByte := PackBlock(img.data, i);
      assert i / 32 == t;
      stores := stores + [i / 32];
      if i / 32 < |buffer| {
        buffer := buffer[i / 32 := JsNumbers.ToUint8(binaryImageByte)];
      }
      i := i + 32;
      t := t + 1;
    }
    BlocksCoverImage(n, t);
    GroupCounts(n);
    assert forall g :: 0 <= g < |buffer| ==> buffer[g] == Pack(img)[g];
    binaryImage := buffer;
  }

  /** The inner loop of the packer, over the eight four-byte pixels of the
      block at byte offset `i`: add the pixel's bit, then shift left unless
      it is the last pixel (`j == 28`). */
  method PackBlock(data: seq<byte>, i: nat) returns (binaryImageByte: int)
    requires i % 32 == 0
    ensures 0 <= binaryImageByte < 256
    ensures binaryImageByte == PackByte(DarkGroup(data, i / 32))
  {
    ghost var g := i / 32;
    binaryImageByte := 0;
    var j := 0;
    ghost var k: nat := 0;
    while j < 32
      invariant j == 4 * k && k <= 8
      invariant binaryImageByte == if k < 8 then 2 * Partial(data, g, k) else Partial(data, g, 8)
      invariant 0 <= binaryImageByte < 256
    {
      assert i + j == 4 * (8 * g + k);
      if Below(data, i + j) || Below(data, i + j + 1) || Below(data, i + j + 2) {
        binaryImageByte := binaryImageByte + 1;
      }
      PartialStep(data, g, k);
      if j < 28 {
        binaryImageByte := JsNumbers.ShiftLeftOne(binaryImageByte);
      }
      j := j + 4;
      k := k + 1;
    }
    assert DarkGroup(data, g)[..8] == DarkGroup(data, g);
  }

  /** Once the outer loop has stepped past the channel data, every output index has been visited. */
  lemma BlocksCoverImage(n: nat, t: nat)
    requires 32 * t >= n * 4
    ensures t >= (n + 7) / 8
  {
  }

  /** The number of blocks the outer loop visits is the number of complete
      groups of eight pixels, plus one when a partial group trails them. */
  lemma GroupCounts(n: nat)
    ensures (n + 7) / 8 == n / 8 + if n % 8 == 0 then 0 else 1
  {
  }

  /** One step of the inner loop: adding pixel `k`'s bit to twice the previous
      partial value gives the next one, which is small enough to shift. */
  lemma PartialStep(data: seq<byte>, g: nat, k: nat)
    requires k < 8
    ensures Partial(data, g, k + 1) == 2 * Partial(data, g, k) + BitValue(IsDark(data, 8 * g + k))
    ensures Partial(data, g, k + 1) < 256
    ensures k < 7 ==> 2 * Partial(data, g, k + 1) < 256
  {
    var group := DarkGroup(data, g);
    assert group[..k + 1][..k] == group[..k];
    assert group[k] == IsDark(data, 8 * g + k);
    assert 4 * (8 * g + k) == 32 * g + 4 * k;
    assert Pow2(7) == 128;
    if k < 7 {
      Pow2Mono(k + 1, 7);
    } else {
      assert Pow2(8) == 256;
    }
  }

  /** Every bit of the packed bitmap is the reading of the pixel it stands for. */
  lemma PackedBits(img: ImageData, p: nat)
    requires p < 8 * |Pack(img)|
    ensures TestBit(Pack(img)[p / 8], 7 - p % 8) <==> IsDark(img.data, p)
  {
    var g, k := p / 8, p % 8;
    assert DarkGroup(img.data, g)[k] == IsDark(img.data, 8 * g + k);
  }

  /** The packer is the reference MSB-first packing of the pixels' readings. */
  lemma PackIsPackBits(img: ImageData)
    ensures Pack(img) == PackBits(Darkness(img))
  {
    var d := Darkness(img);
    forall g | 0 <= g < |Pack(img)|
      ensures Pack(img)[g] == PackBits(d)[g]
    {
      assert 8 * g + 8 <= |d|;
      PackBitsAt(d, g);
      assert d[8 * g .. 8 * g + 8] == DarkGroup(img.data, g);
    }
  }

  /** Reading the bitmap back, bit by bit, gives the reading of every pixel
      of the complete groups. */
  lemma UnpackPack(img: ImageData)
    ensures UnpackBits(Pack(img)) == Darkness(img)[..8 * (img.PixelCount() / 8)]
  {
    PackIsPackBits(img);
    UnpackPackBits(Darkness(img));
  }

  /** Pixel `8g + k` of a complete group lies inside the channel data. */
  lemma GroupInImage(img: ImageData, g: nat, k: nat)
    requires img.Valid()
    requires g < img.PixelCount() / 8 && k < 8
    ensures 4 * (8 * g + k) + 3 < |img.data|
  {
    var n := img.PixelCount();
    assert 8 * (n / 8) <= n;
    assert |img.data| == 4 * n;
  }

  /** A pixel whose colour channels are all at least 150 is white. */
  lemma WhitePixel(data: seq<byte>, p: nat)
    requires forall o :: 0 <= o < |data| && o % 4 != 3 ==> data[o] >= Threshold
    ensures !IsDark(data, p)
  {
    assert (4 * p) % 4 == 0 && (4 * p + 1) % 4 == 1 && (4 * p + 2) % 4 == 2;
  }

  /** A pixel inside the data whose colour channels are all below 150 is black. */
  lemma BlackPixel(data: seq<byte>, p: nat)
    requires 4 * p + 3 < |data|
    requires forall o :: 0 <= o < |data| && o % 4 != 3 ==> data[o] < Threshold
    ensures IsDark(data, p)
  {
    assert (4 * p) % 4 == 0;
  }

  /** Pixels with equal colour channels get the same reading, whatever their alpha. */
  lemma SameColourSameReading(a: seq<byte>, b: seq<byte>, p: nat)
    requires |a| == |b|
    requires forall o :: 0 <= o < |a| && o % 4 != 3 ==> a[o] == b[o]
    ensures IsDark(a, p) == IsDark(b, p)
  {
    assert (4 * p) % 4 == 0 && (4 * p + 1) % 4 == 1 && (4 * p + 2) % 4 == 2;
  }

  /** An image whose red, green and blue channels are all at least 150 (white,
      say) packs to zero bytes. */
  lemma AllWhite(img: ImageData)
    requires forall o :: 0 <= o < |img.data| && o % 4 != 3 ==> img.data[o] >= Threshold
    ensures Pack(img) == seq(img.PixelCount() / 8, _ => 0)
  {
    forall g | 0 <= g < img.PixelCount() / 8
      ensures Pack(img)[g] == 0
    {
      var group := DarkGroup(img.data, g);
      forall k | 0 <= k < 8
        ensures !group[k]
      {
        WhitePixel(img.data, 8 * g + k);
        assert group[k] == IsDark(img.data, 8 * g + k);
      }
      HornerAllFalse(group);
    }
  }

  /** An image whose red, green and blue channels are all below 150 (black,
      say) packs to 0xFF bytes. */
  lemma AllBlack(img: ImageData)
    requires img.Valid()
    requires forall o :: 0 <= o < |img.data| && o % 4 != 3 ==> img.data[o] < Threshold
    ensures Pack(img) == seq(img.PixelCount() / 8, _ => 0xFF)
  {
    forall g | 0 <= g < img.PixelCount() / 8
      ensures Pack(img)[g] == 0xFF
    {
      var group := DarkGroup(img.data, g);
      forall k | 0 <= k < 8
        ensures group[k]
      {
        GroupInImage(img, g, k);
        BlackPixel(img.data, 8 * g + k);
        assert group[k] == IsDark(img.data, 8 * g + k);
      }
      HornerAllTrue(group);
      assert Pow2(8) == 256;
    }
  }

  /** Only the red, green and blue bytes matter: two images of the same size
      that differ at most in their alpha bytes pack identically. */
  lemma AlphaIgnored(a: ImageData, b: ImageData)
    requires a.width == b.width && a.height == b.height && |a.data| == |b.data|
    requires forall o :: 0 <= o < |a.data| && o % 4 != 3 ==> a.data[o] == b.data[o]
    ensures Pack(a) == Pack(b)
  {
    forall g | 0 <= g < |Pack(a)|
      ensures Pack(a)[g] == Pack(b)[g]
    {
      forall k | 0 <= k < 8
        ensures DarkGroup(a.data, g)[k] == DarkGroup(b.data, g)[k]
      {
        SameColourSameReading(a.data, b.data, 8 * g + k);
      }
      assert DarkGroup(a.data, g) == DarkGroup(b.data, g);
    }
  }
}

=== FILE: js_numbers.dfy ===
/** The two JavaScript number conversions the image packer passes through:
    the 32-bit signed conversion behind `<<`, and the octet conversion a
    `Buffer` applies when an element is assigned. Only integral numbers
    occur, so both are stated on `int`. */
module JsNumbers {

  const TwoTo32: int := 0x1_0000_0000
  const TwoTo31: int := 0x8000_0000

  /** ToInt32: wrap into the signed 32-bit range. */
  function ToInt32(x: int): (r: int)
    ensures -TwoTo31 <= r < TwoTo31
    ensures (r - x) % TwoTo32 == 0
  {
    var m := x % TwoTo32;
    if m >= TwoTo31 then m - TwoTo32 else m
  }

  /** `x << 1` on an integral number. */
  function ShiftLeftOne(x: int): (r: int)
    ensures -TwoTo31 <= r < TwoTo31
    ensures 0 <= x < 0x4000_0000 ==> r == 2 * x
  {
    ToInt32(2 * ToInt32(x))
  }

  /** The value a `Buffer` (a `Uint8Array`) keeps when `x` is assigned to an element. */
  function ToUint8(x: int): (r: int)
    ensures 0 <= r < 256
    ensures (r - x) % 256 == 0
    ensures 0 <= x < 256 ==> r == x
  {
    x % 256
  }
}

=== FILE: network_display.dfy ===
/** `NetworkDisplay`: the status records built from a display's JSON reply.
    Polling, the reply's transport and parsing, and the clock are outside
    this model; their results arrive as parameters. */
module NetworkDisplay {
  import opened SensorEvents

  /** The one tag a display status carries. */
  const DisplayTag: string := "d"

  /** The status record built from a parsed reply (`instance`, `vcc`,
      `parent`) and the current time as an ISO string (`ts`). */
  function DisplayStatus(instance: string, vcc: real, ts: string, parent: ThreadParentInfo): (e: SensorEvent)
    ensures IsThreadDisplayStatus(e)
    ensures forall kind :: Guard(kind, e) <==> kind == ThreadDisplayStatusKind
    ensures WellTagged(e)
    ensures e.instance == instance && e.ts == ts && e.vcc == Some(vcc)
    ensures e.reading == ThreadDisplayStatus(parent)
    ensures e.previousSampleTimeMicros.None? && e.rssi.None?
  {
    SensorEvent(instance, DisplayTag, ts, Some(vcc), None, None, ThreadDisplayStatus(parent))
  }
}

=== FILE: sensor_events.dfy ===
/** `SensorEvents`: the event records sensors publish and the twelve type
    guards that tell the members of the `ISensorEvent` union apart. Every
    guard compares the event's `tag` with a one-character code and looks at
    nothing else. Numeric fields are JavaScript numbers, held here as `real`. */
module SensorEvents {

  datatype Option<T> = None | Some(value: T)

  datatype ThreadParentInfo = ThreadParentInfo(
    rloc16: string,
    linkQualityIn: real,
    linkQualityOut: real,
    avgRssi: real,
    latestRssi: real)

  /** The fields each member of the `ISensorEvent` union adds to the common base. */
  datatype Reading =
    | Temperature(temperature: real)
    | Pressure(pressure: real)
    | Humidity(humidity: real)
    | Current(current: real, messageCounter: Option<real>)
    | TankLevel(tankLevel: real)
    | ElectricEnergy(ampHours: real)
    | LevelReport(level: real)
    | AutopilotCommand(buttonId: real, isLongPress: bool)
    | AutopilotState(enabled: bool, course: real)
    | Pir(motionDetected: bool, messageId: real)
    | ThreadDisplayStatus(parent: ThreadParentInfo)
    | Impulse

  /** An `ISensorEvent`: the base fields and the member-specific reading. The
      `tag` is an ordinary string; nothing forces it to agree with `reading`. */
  datatype SensorEvent = SensorEvent(
    instance: string,
    tag: string,
    ts: string,
    vcc: Option<real>,
    previousSampleTimeMicros: Option<real>,
    rssi: Option<real>,
    reading: Reading)

  predicate IsTemperature(event: SensorEvent) { event.tag == "t" }
  predicate IsPressure(event: SensorEvent) { event.tag == "p" }
  predicate IsHumidity(event: SensorEvent) { event.tag == "h" }
  predicate IsCurrent(event: SensorEvent) { event.tag == "c" }
  predicate IsTankLevel(event: SensorEvent) { event.tag == "w" }
  predicate IsElectricEnergy(event: SensorEvent) { event.tag == "e" }
  predicate IsLevelReport(event: SensorEvent) { event.tag == "r" }
  predicate IsAutopilotCommand(event: SensorEvent) { event.tag == "a" }
  predicate IsAutopilotState(event: SensorEvent) { event.tag == "b" }
  predicate IsPirEvent(event: SensorEvent) { event.tag == "k" }
  predicate IsThreadDisplayStatus(event: SensorEvent) { event.tag == "d" }
  predicate IsImpulseEvent(event: SensorEvent) { event.tag == "i" }

  /** The twelve members of the `ISensorEvent` union. */
  datatype EventKind =
    | TemperatureKind | PressureKind | HumidityKind | CurrentKind
    | TankLevelKind | ElectricEnergyKind | LevelReportKind | AutopilotCommandKind
    | AutopilotStateKind | PirKind | ThreadDisplayStatusKind | ImpulseKind

  /** The member of the union whose fields a reading carries. */
  function KindOf(reading: Reading): EventKind {
    match reading
    case Temperature(_) => TemperatureKind
    case Pressure(_) => PressureKind
    case Humidity(_) => HumidityKind
    case Current(_, _) => CurrentKind
    case TankLevel(_) => TankLevelKind
    case ElectricEnergy(_) => ElectricEnergyKind
    case LevelReport(_) => LevelReportKind
    case AutopilotCommand(_, _) => AutopilotCommandKind
    case AutopilotState(_, _) => AutopilotStateKind
    case Pir(_, _) => PirKind
    case ThreadDisplayStatus(_) => ThreadDisplayStatusKind
    case Impulse => ImpulseKind
  }

  /** The tag code of each member, as its guard compares it. */
  function Code(kind: EventKind): (r: string)
    ensures |r| == 1
  {
    match kind
    case TemperatureKind => "t"
    case PressureKind => "p"
    case HumidityKind => "h"
    case CurrentKind => "c"
    case TankLevelKind => "w"
    case ElectricEnergyKind => "e"
    case LevelReportKind => "r"
    case AutopilotCommandKind => "a"
    case AutopilotStateKind => "b"
    case PirKind => "k"
    case ThreadDisplayStatusKind => "d"
    case ImpulseKind => "i"
  }

  /** The guard the source provides for a member of the union. */
  predicate Guard(kind: EventKind, event: SensorEvent) {
    match kind
    case TemperatureKind => IsTemperature(event)
    case PressureKind => IsPressure(event)
    case HumidityKind => IsHumidity(event)
    case CurrentKind => IsCurrent(event)
    case TankLevelKind => IsTankLevel(event)
    case ElectricEnergyKind => IsElectricEnergy(event)
    case LevelReportKind => IsLevelReport(event)
    case AutopilotCommandKind => IsAutopilotCommand(event)
    case AutopilotStateKind => IsAutopilotState(event)
    case PirKind => IsPirEvent(event)
    case ThreadDisplayStatusKind => IsThreadDisplayStatus(event)
    case ImpulseKind => IsImpulseEvent(event)
  }

  /** An event whose tag is the code of the member its fields belong to, and
      which carries the base fields that member makes required: a display
      status must have a `vcc`. */
  predicate WellTagged(event: SensorEvent) {
    && event.tag == Code(KindOf(event.reading))
    && (event.reading.ThreadDisplayStatus? ==> event.vcc.Some?)
  }

  /** The member of the union an event's tag selects, found by trying the
      guards in the order the source declares them. */
  function Classify(event: SensorEvent): (r: Option<EventKind>)
    ensures forall kind :: r == Some(kind) <==> Guard(kind, event)
    ensures r.None? <==> forall kind :: !Guard(kind, event)
  {
    if IsTemperature(event) then Some(TemperatureKind)
    else if IsPressure(event) then Some(PressureKind)
    else if IsHumidity(event) then Some(HumidityKind)
    else if IsCurrent(event) then Some(CurrentKind)
    else if IsTankLevel(event) then Some(TankLevelKind)
    else if IsElectricEnergy(event) then Some(ElectricEnergyKind)
    else if IsLevelReport(event) then Some(LevelReportKind)
    else if IsAutopilotCommand(event) then Some(AutopilotCommandKind)
    else if IsAutopilotState(event) then Some(AutopilotStateKind)
    else if IsPirEvent(event) then Some(PirKind)
    else if IsThreadDisplayStatus(event) then Some(ThreadDisplayStatusKind)
    else if IsImpulseEvent(event) then Some(ImpulseKind)
    else None
  }

  /** Each guard holds exactly when the tag is its member's code. */
  lemma GuardIsTagTest(kind: EventKind, event: SensorEvent)
    ensures Guard(kind, event) <==> event.tag == Code(kind)
  {
  }

  /** No two members share a tag code. */
  lemma CodesDistinct(k1: EventKind, k2: EventKind)
    ensures Code(k1) == Code(k2) <==> k1 == k2
  {
  }

  /** At most one guard holds for any event. */
  lemma AtMostOneGuard(event: SensorEvent, k1: EventKind, k2: EventKind)
    requires Guard(k1, event) && Guard(k2, event)
    ensures k1 == k2
  {
    GuardIsTagTest(k1, event);
    GuardIsTagTest(k2, event);
    CodesDistinct(k1, k2);
  }

  /** The guards read the tag and nothing else. */
  lemma GuardsSeeOnlyTag(e1: SensorEvent, e2: SensorEvent, kind: EventKind)
    requires e1.tag == e2.tag
    ensures Guard(kind, e1) <==> Guard(kind, e2)
  {
  }

  /** A tag that is none of the twelve codes satisfies no guard. */
  lemma UnknownTagNoGuard(event: SensorEvent)
    requires event.tag !in {"t", "p", "h", "c", "w", "e", "r", "a", "b", "k", "d", "i"}
    ensures forall kind :: !Guard(kind, event)
  {
  }

  /** The guards correspond one-to-one with the members of the union: a
      well-tagged event passes the guard of the member its fields belong to
      and no other. */
  lemma GuardsMatchUnion(event: SensorEvent, kind: EventKind)
    requires WellTagged(event)
    ensures Guard(kind, event) <==> kind == KindOf(event.reading)
    ensures Classify(event) == Some(KindOf(event.reading))
  {
    GuardIsTagTest(kind, event);
    CodesDistinct(kind, KindOf(event.reading));
  }
}
